=== FILE: README.md ===
# Evaluation runner of the LangChain+ client, in Dafny

This project models the sequential evaluation logic of `LangChainPlusClient`
(`langchain/client/langchain.py`). The client runs a predictor (an LLM, a chat
model or a chain) over every example of a dataset and records the outputs of
each example. It hands the tracer to every invocation and sets the tracer's
`example_id` to the example's id before the repetitions, so the trace session
can link runs to examples. The model also covers the small
request-shaping and validation rules around that logic.

The predictor, the HTTP service and the trace recorder are foreign code.

- A predictor is a datatype. It holds its kind (`Llm`, `ChatModel`,
  `OtherLanguageModel`, `Chain`), the module and class name Python reports
  for it, and two total functions: a blocking one and a suspending one.
  Each maps the call the client makes, the tracer's current `example_id` and
  the repetition number to `Returned(value)` or `Raised(str(e))`.
- The tracer's only state that the runner touches is `example_id`. It is
  threaded in and out as a value.
- `read_dataset` + `list_examples`, as used by the dataset runners, become the
  parameter `listing`: either the example list or the error.
- A request is modelled by what it would send: URL, headers, parameters or
  form data. A reply is modelled by what its JSON decoded to.

Modules, following the structure of the source:

- `Values`: examples, ids, outcomes (`Output(v)` or the error envelope
  `{"Error": message}`), `Option`/`Result`, and the client's own exceptions.
- `Text`: Python's `split`, `join`, `endswith`, `in` and `str(int)`.
- `Predictors`: the kind dispatch of `run_llm`/`_arun_llm`.
- `Runner`: `run_llm_or_chain`/`_arun_llm_or_chain`, with a `Mode`
  parameter that selects the blocking or the suspending twin.
- `Aggregate`: the sequence of `results[key] = value` writes.
- `Worker`: `_worker` as a single consumer of the queue.
- `Evaluation`: `run_on_dataset` and `arun_on_dataset` with one worker.
- `Client`: headers, query parameters, `_get`, `read_dataset`,
  `list_examples`, `upload_csv` and `upload_dataframe`.

Behaviour of the code that the model keeps:

- Both dataset runners refuse every language model with
  `NotImplementedError` before reading the dataset. Inside the per-example
  runner, an unsupported language-model kind raises a `ValueError` that is
  caught in every repetition.
- The runner restores the saved `example_id` in a `finally` inside the
  repetition loop. So only the first repetition runs tagged with the
  example. With zero repetitions the id is never restored.
- The repetition count is any int; `range` of a non-positive count runs
  nothing.
- The sequential runner writes only the last example, and fails on an
  empty dataset.
- The sequential runner's result is keyed by the example id object; the
  worker's result is keyed by `str(id)`.
- The default session names differ: `{dataset}-{class}-{n}` when
  sequential, `{dataset}_{class}-{n}` when asynchronous.

Python's assignment `results[example.id] = result` evaluates `result` first.
So with no examples, the failure is the unbound local `result`.

## Model

| member | source | states |
|---|---|---|
| `Values.Catch` | langchain/client/langchain.py:406-418 | a raised exception becomes an error envelope carrying `str(e)`; a returned value is kept as the slot's output |
| `Predictors.RunLlm` | langchain/client/langchain.py:376-392 | a completion or chat model is called with `inputs["prompts"]`; a missing `prompts` key raises `KeyError` (`'prompts'`); any other kind raises `ValueError("Unsupported LLM type <class ...>")` |
| `Predictors.Invoke` | langchain/client/langchain.py:406-414 | one repetition's call: a chain is called with the example's whole input mapping; a completion or chat model with its `prompts` input, or `KeyError` when that is missing; any other language model raises `ValueError` naming its class |
| `Predictors.InvokeDependsOnlyOnTheCall` | langchain/client/langchain.py:406-414 | two predictors of the same kind and type that answer the call the client makes alike give the same attempt: the client passes nothing else to the predictor |
| `Predictors.UnsupportedKindAlwaysRaises` | langchain/client/langchain.py:390-391 | a language model that is neither `BaseLLM` nor `BaseChatModel` fails every call with the same message, which ends with its class name |
| `Runner.RunLlmOrChain` | langchain/client/langchain.py:395-421 | exactly `max(n, 0)` outcomes in repetition order; slot `k` holds the outcome of invocation `k`, and an error envelope exactly when that invocation raised; invocation 0 runs with the example's id and later ones with the saved id; the tracer ends on the saved id when `n >= 1` and on the example's id when `n < 1` |
| `Runner.OnlyFirstRepetitionTagged` | langchain/client/langchain.py:259-277 | for both twins, repetition `k` sees the example's id exactly when `k == 0` or the saved id already was that id |
| `Runner.NoRepetitionsNoOutputs` | langchain/client/langchain.py:404-405 | with `n < 1` the output list is empty, whatever the tracer state |
| `Runner.UnsupportedKindFillsEverySlot` | langchain/client/langchain.py:407-418 | an unsupported language model does not abort the runner: every one of the `max(n, 0)` slots holds the `ValueError` message |
| `Runner.RestoreInsideLoopCounterexample` | langchain/client/langchain.py:402-420 | concrete run: with no saved id the second of two repetitions runs untagged, and zero repetitions leave the tracer on the example; the scoped runner tags both and restores |
| `Runner.RunLlmOrChainScoped` | langchain/client/langchain.py:402-420 | corrected runner: `max(n, 0)` outcomes, every repetition invoked with the example's id, tracer restored to the saved id for every `n` |
| `Aggregate.AssignKeys` | langchain/client/langchain.py:302 | after a sequence of dict writes the keys are exactly the old keys and the written ones |
| `Aggregate.AssignLastWrite` | langchain/client/langchain.py:302 | after a sequence of dict writes, every written key holds the value of its last write |
| `Aggregate.AssignUntouched` | langchain/client/langchain.py:302 | after a sequence of dict writes, a key that was never written keeps its old value |
| `Aggregate.AssignValues` | langchain/client/langchain.py:302 | after a sequence of dict writes, every written key holds one of the written values |
| `Worker.Work` | langchain/client/langchain.py:291-294 | the worker takes the longest marker-free prefix of the queue and stops at the first `None` |
| `Worker.Take` | langchain/client/langchain.py:296-302 | one item: the dict gains `str(id) -> outputs` of a run from the saved id, and the tracer ends on the saved id unless `n < 1`; when `n >= 1` the tracer must already be on the saved id, which the drain's loop guarantees |
| `Worker.RecordingIsAssign` | langchain/client/langchain.py:291-302 | recording the examples one by one is the same sequence of dict writes `str(id) -> outputs` in queue order |
| `Worker.Drain` | langchain/client/langchain.py:281-310 | one worker: `num_processed` and `task_done` rise by exactly one per example taken, whatever the repetition count, and not for the marker; it stops only at a marker; the dict becomes the writes `str(id) -> outputs` in queue order; the tracer ends on its start value unless `n < 1` |
| `Worker.Recorded` | langchain/client/langchain.py:296-302 | the worker's dict has a key for every example taken and no other new key; each key holds the outputs of that id's last example; each list has `max(n, 0)` entries; keys it never wrote are untouched |
| `Evaluation.DefaultSessionNameLayout` | langchain/client/langchain.py:445-448 | the default session name is laid out as the dataset name, the joiner, the class name, a `-` and then exactly `f"{n}"`, in that order |
| `Evaluation.DefaultSessionNameRecordsRepetitions` | langchain/client/langchain.py:445-448 | the default session name starts with the dataset name and the joiner, then the class name and a `-`, and the rest is exactly `f"{n}"` (a `-` in front of a negative count, decimal digits without a leading zero); the text after its last `-` parses back to a non-negative `n` |
| `Evaluation.SessionNameFor` | langchain/client/langchain.py:445-448 | the caller's session name is used unchanged; without one, the name starts with the dataset name and the joiner, then the predictor's class name and a `-`, and the rest is exactly `f"{n}"`; the text after its last `-` parses back to a non-negative `n` |
| `Evaluation.RunOnDataset` | langchain/client/langchain.py:423-466 | any language model gives `NotImplementedError` before the dataset is read; a failed lookup propagates; no examples gives the unbound-local failure; otherwise the dict has exactly one key, the last example's id, bound to that example's outputs |
| `Evaluation.RunEachExample` | langchain/client/langchain.py:456-463 | after the loop, `example` and `result` hold the last example and its blocking run from the fresh tracer id; with no examples both stay unbound |
| `Evaluation.LastExampleOnlyCounterexample` | langchain/client/langchain.py:456-466 | concrete run on examples `a`, `b`: the as-written result lacks `a`, and the corrected runner records both |
| `Evaluation.RunOnDatasetAll` | langchain/client/langchain.py:443-466 | corrected sequential runner: a language model is refused with `NotImplementedError`, a failed lookup propagates, and otherwise the run carries the session name and its dict's keys are exactly the examples' ids |
| `Evaluation.RunOnDatasetAllRecordsEveryExample` | langchain/client/langchain.py:456-465 | corrected sequential runner: the dict's keys are exactly the examples' ids, each with `max(n, 0)` outcomes; every recorded repetition ran under its own example's id |
| `Evaluation.QueueFor` | langchain/client/langchain.py:363-369 | the fed queue (all examples, then one marker) is drained to exactly the examples |
| `Evaluation.ArunOnDatasetOneWorker` | langchain/client/langchain.py:312-373 | any language model gives `NotImplementedError`; a failed lookup propagates; otherwise the session name is `_`-joined and the result is the single worker's dict over all examples |
| `Evaluation.OneWorkerProcessesEveryExample` | langchain/client/langchain.py:343-371 | with one worker, every example is recorded under `str(id)` with `max(n, 0)` outcomes, no other key appears, and the worker stops at its marker |
| `Evaluation.SequentialMatchesWorkerShape` | langchain/client/langchain.py:450-465 | the corrected sequential runner and the one-worker asynchronous runner record the same examples (by id and by `str(id)`) with equally long lists |
| `Client.Headers` | langchain/client/langchain.py:98-104 | an `authorization` header exists exactly when the API key is set and non-empty, and its value is `Bearer ` followed by the key; there is no other header |
| `Client.BearerTokenRecoversKey` | langchain/client/langchain.py:98-104 | stripping `Bearer ` from the `authorization` header gives back exactly the API key |
| `Client.Get` | langchain/client/langchain.py:111-118 | the URL is `api_url + path`; the parameters are `tenant_id` plus the caller's, with the caller's values winning; `tenant_id` is the client's unless the caller overrides it |
| `Client.ReadDatasetRequest` | langchain/client/langchain.py:177-188 | an id gives `GET /datasets/{id}` with exactly `limit=1` and the tenant; else a name gives `GET /datasets` with exactly those two and `name`; neither gives `ValueError`; every request carries the client's headers |
| `Client.ReadDatasetReply` | langchain/client/langchain.py:189-195 | only an empty list fails (`Dataset <name or None> not found`); a list yields its first dataset and an object yields itself |
| `Client.ListExamplesRequest` | langchain/client/langchain.py:225-230 | `GET /examples` with the client's headers; given a dataset id, the query is exactly the tenant id and `dataset`; without one, it is the tenant id alone |
| `Client.UploadCsvRequest` | langchain/client/langchain.py:150-163 | `POST /datasets/upload` with the file, the client's headers, and exactly the four form fields, including the description and the tenant; an empty key list is sent as the empty string |
| `Client.UploadKeysRoundTrip` | langchain/client/langchain.py:152-154 | the comma-joined key lists split back to the caller's keys when there is at least one key and none contains a comma |
| `Client.UploadFileNameIsBaseName` | langchain/client/langchain.py:168-169 | the file name in the "already exists" message is the longest `/`-free suffix of the path or name |
| `Client.UploadCsvReply` | langchain/client/langchain.py:165-171 | a reply whose `detail` contains "already exists" fails with `Dataset <file name> already exists`; any other reply yields the dataset |
| `Client.UploadDataframe` | langchain/client/langchain.py:128-141 | the checks run in order: name ends with `.csv`, then input keys are columns, then output keys are columns; the first failure raises its message and nothing is uploaded; upload happens exactly when all three pass, as `(name, buffer)` through `upload_csv` |
| `Text.ContainsAt` | langchain/client/langchain.py:167 | `sub in s` holds exactly when `sub` occurs in `s` starting at some index |
| `Text.SplitJoin` | langchain/client/langchain.py:153-154 | `split` undoes `join` for a non-empty list of separator-free pieces |
| `Text.LastPieceIsLastOfSplit` | langchain/client/langchain.py:169 | skipping past one separator at a time ends on the last element of `split(sep)` |
| `Text.LastPieceOfConcat` | langchain/client/langchain.py:447 | the text after the last separator of `x + sep + y` is that of `y`, whatever `x` holds |
| `Text.LastPieceIsSuffix` | langchain/client/langchain.py:169 | `s.split(sep)[-1]` is the longest separator-free suffix of `s` |
| `Text.IntToDecimalRoundTrip` | langchain/client/langchain.py:447 | the decimal rendering of the repetition count parses back to it |

## Findings

| source | as written | input that shows it | evidently intended | confidence | as-written member | corrected member |
|---|---|---|---|---|---|---|
| langchain/client/langchain.py:419-420 | the `finally` that restores `example_id` is inside the repetition loop | two repetitions with no saved id: the second runs with `example_id` None; zero repetitions: the tracer is left on the example | set the id once, run every repetition under it, restore once after the loop | high, not executed | `Runner.RunLlmOrChain`, `Runner.RestoreInsideLoopCounterexample` | `Runner.RunLlmOrChainScoped` |
| langchain/client/langchain.py:465 | `results[example.id] = result` is after the `for` loop | examples `a`, `b`: the result has only `b`; no examples: unbound `result` | one write per example inside the loop; an empty dataset gives `{}` | high, not executed | `Evaluation.RunOnDataset`, `Evaluation.LastExampleOnlyCounterexample` | `Evaluation.RunOnDatasetAll`, `Evaluation.RunOnDatasetAllRecordsEveryExample` |

The corrected sequential runner `Evaluation.RunOnDatasetAll` is built on the
corrected runner. `Runner.RunLlmOrChain`, `Worker.Drain` and
`Evaluation.RunOnDataset` keep the code's behaviour, because they model what
the code does.

## Left out

- The multi-worker machinery of `arun_on_dataset` is not modelled: task
  creation, `queue.join`, one marker per worker, and `gather`. It exists
  only for concurrency. The model covers `num_workers == 1`, whose single
  worker drains every example and then its marker.
- HTTP traffic, `raise_for_status_with_text` and JSON decoding are not
  modelled: they are I/O with an external service. Requests are modelled by
  what they would send, and replies by their decoded form.
- `validate_api_key_if_hosted` and `_get_seeded_tenant_id` are left out:
  they resolve settings through the network.
- `_is_localhost` is left out: it depends on DNS.
- `_get_link_stem`, `_repr_html_` and `__repr__` are left out: they only
  format strings.
- `list_datasets`, `delete_dataset` and `read_example` are left out: they
  are thin HTTP wrappers outside the evaluation logic.
- The predictors' own work is foreign code: `generate`, `agenerate`, `run`,
  `arun` and the chat-message parsing of `parse_chat_messages`. A chat
  model's parsing failure counts as part of its call.
- Logging, the `verbose` progress printing, pandas `to_csv` and the
  `BytesIO` buffer's content are left out. They do not affect results.
- Opening and closing the trace session (`tracing_v2_enabled`) is left out.
  Only the session name is modelled.
- The `xor_args` decorator on `read_dataset` and the default `example_id`
  of a fresh `LangChainTracerV2` are not part of this model. The fresh
  tracer's id is a parameter. With both a name and an id, the modelled body
  prefers the id.
- Exceptions that are not `Exception` subclasses (such as
  `KeyboardInterrupt`) escape the runner in Python. The model treats every
  failure of a predictor as caught.
- `Text.Split` and `Text.Join` are modelled for one-character separators
  only, which is all the client uses.
- `Worker.Drain`: a worker whose queue runs out without a marker would block
  in `queue.get()`. The model returns `stopped == false` instead.

=== FILE: aggregate.dfy ===
/** The result map both dataset runners fill: a sequence of writes
    `results[key] = value`, performed in order on a Python dict. */
module Aggregate {

  /** Write `i` is the last one to its key. */
  ghost predicate LastWrite<K>(keys: seq<K>, i: int)
    requires 0 <= i < |keys|
  {
    forall j | i < j < |keys| :: keys[j] != keys[i]
  }

  /** `m` after `m[keys[0]] = vals[0]; m[keys[1]] = vals[1]; ...`. */
  function Assign<K, V>(m: map<K, V>, keys: seq<K>, vals: seq<V>): map<K, V>
    requires |keys| == |vals|
    decreases |keys|
  {
    if |keys| == 0 then m
    else
      var n := |keys| - 1;
      Assign(m, keys[..n], vals[..n])[keys[n] := vals[n]]
  }

  /** The keys after the writes are the old keys and the written ones. */
  lemma {:induction false} AssignKeys<K, V>(m: map<K, V>, keys: seq<K>, vals: seq<V>)
    requires |keys| == |vals|
    ensures forall k :: k in Assign(m, keys, vals) <==> k in m || k in keys
  {
    if |keys| > 0 {
      var n := |keys| - 1;
      AssignKeys(m, keys[..n], vals[..n]);
      assert keys == keys[..n] + [keys[n]];
    }
  }

  /** A key's last write decides its value. */
  lemma {:induction false} AssignLastWrite<K, V>(m: map<K, V>, keys: seq<K>, vals: seq<V>)
    requires |keys| == |vals|
    ensures forall i | 0 <= i < |keys| && LastWrite(keys, i) ::
      keys[i] in Assign(m, keys, vals) && Assign(m, keys, vals)[keys[i]] == vals[i]
  {
    AssignKeys(m, keys, vals);
    if |keys| > 0 {
      var n := |keys| - 1;
      AssignKeys(m, keys[..n], vals[..n]);
      AssignLastWrite(m, keys[..n], vals[..n]);
      var r := Assign(m, keys, vals);
      forall i | 0 <= i < |keys| && LastWrite(keys, i)
        ensures keys[i] in r && r[keys[i]] == vals[i]
      {
        if i < n {
          assert LastWrite(keys[..n], i);
          assert keys[i] != keys[n];
        }
      }
    }
  }

  /** A key that is never written keeps its value. */
  lemma {:induction false} AssignUntouched<K, V>(m: map<K, V>, keys: seq<K>, vals: seq<V>)
    requires |keys| == |vals|
    ensures forall k | k in m && k !in keys :: k in Assign(m, keys, vals) && Assign(m, keys, vals)[k] == m[k]
  {
    AssignKeys(m, keys, vals);
    if |keys| > 0 {
      var n := |keys| - 1;
      AssignKeys(m, keys[..n], vals[..n]);
      AssignUntouched(m, keys[..n], vals[..n]);
      forall k | k in m && k !in keys
        ensures k in Assign(m, keys, vals) && Assign(m, keys, vals)[k] == m[k]
      {
        assert k !in keys[..n] && k != keys[n];
      }
    }
  }

  /** Every written key holds one of the written values. */
  lemma {:induction false} AssignValues<K, V>(m: map<K, V>, keys: seq<K>, vals: seq<V>)
    requires |keys| == |vals|
    ensures forall k | k in keys :: k in Assign(m, keys, vals) && Assign(m, keys, vals)[k] in vals
  {
    if |keys| > 0 {
      var n := |keys| - 1;
      AssignValues(m, keys[..n], vals[..n]);
      var r := Assign(m, keys, vals);
      forall k | k in keys
        ensures k in r && r[k] in vals
      {
        if k != keys[n] {
          assert k in keys[..n];
          assert vals == vals[..n] + [vals[n]];
        }
      }
    }
  }
}

=== FILE: client.dfy ===
/** The request shaping of `LangChainPlusClient`: the headers and query
    parameters every request carries, the request `read_dataset` makes and
    how it reads the reply, and the argument checks and form fields of
    `upload_dataframe` / `upload_csv`. Sending a request and decoding its
    JSON reply are external; a request is modelled by what it would send
    and a reply by what it decoded to. */
module Client {
  import opened Values
  import opened Text

  /** The client's settings: `api_key`, `api_url`, `tenant_id`. */
  datatype Settings = Settings(apiKey: Option<string>, apiUrl: string, tenantId: string)

  /** A query parameter value: a string or an int. */
  datatype Param = PStr(s: string) | PInt(i: int)

  datatype GetRequest = GetRequest(url: string, headers: map<string, string>, params: map<string, Param>)

  /** The scheme word in front of the key in the `authorization` header. */
  const BearerPrefix: string := "Bearer "

  /** `_headers`: an `authorization` bearer header when an API key is set
      and non-empty (Python truthiness), and nothing else. */
  function Headers(c: Settings): (h: map<string, string>)
    ensures h.Keys <= {"authorization"}
    ensures "authorization" in h <==> c.apiKey.Some? && c.apiKey.value != ""
    ensures "authorization" in h ==>
      && |BearerPrefix| < |h["authorization"]|
      && h["authorization"][..|BearerPrefix|] == BearerPrefix
      && h["authorization"][|BearerPrefix|..] == c.apiKey.value
  {
    if c.apiKey.Some? && c.apiKey.value != "" then
      var value := BearerPrefix + c.apiKey.value;
      assert value[..|BearerPrefix|] == BearerPrefix && value[|BearerPrefix|..] == c.apiKey.value;
      map["authorization" := value]
    else map[]
  }

  /** How the receiving service reads a bearer header: the token after
      `Bearer `, or nothing when the header has another form. */
  function BearerToken(value: string): Option<string>
  {
    if |BearerPrefix| <= |value| && value[..|BearerPrefix|] == BearerPrefix
    then Some(value[|BearerPrefix|..])
    else None
  }

  /** The receiver gets the client's API key back from the header, and gets
      a header exactly when a key is set. */
  lemma BearerTokenRecoversKey(c: Settings)
    ensures var h := Headers(c);
      && ("authorization" in h <==> c.apiKey.Some? && c.apiKey.value != "")
      && ("authorization" in h ==> BearerToken(h["authorization"]) == Some(c.apiKey.value))
  {
  }

  /** `query_params`. */
  function QueryParams(c: Settings): map<string, Param>
  {
    map["tenant_id" := PStr(c.tenantId)]
  }

  /** `_get(path, params)`: `api_url + path` with the client's headers, and
      the query parameters `{"tenant_id": ...}` updated by `params` (an
      empty or absent `params` leaves them alone; a `tenant_id` in `params`
      overrides the client's). */
  function Get(c: Settings, path: string, params: Option<map<string, Param>>): (r: GetRequest)
    ensures r.url == c.apiUrl + path
    ensures r.headers == Headers(c)
    ensures forall k :: k in r.params <==> k == "tenant_id" || (params.Some? && k in params.value)
    ensures forall k | params.Some? && k in params.value :: r.params[k] == params.value[k]
    ensures params.None? || "tenant_id" !in params.value ==> r.params["tenant_id"] == PStr(c.tenantId)
  {
    var query := QueryParams(c);
    var merged := if params.Some? && |params.value| > 0 then query + params.value else query;
    GetRequest(c.apiUrl + path, Headers(c), merged)
  }

  /** The request half of `read_dataset`: by id, `GET /datasets/{id}`; else
      by name, `GET /datasets` with a `name` parameter; else `ValueError`.
      Both carry `limit=1` and the tenant. (The `xor_args` decorator that
      refuses both-or-neither before this body runs is not part of this
      model; here an id wins over a name.) */
  function ReadDatasetRequest(c: Settings, datasetName: Option<string>, datasetId: Option<string>)
    : (r: Result<GetRequest, Error>)
    ensures datasetId.Some? ==>
      r == Success(GetRequest(c.apiUrl + "/datasets/" + datasetId.value, Headers(c),
                              map["limit" := PInt(1), "tenant_id" := PStr(c.tenantId)]))
    ensures datasetId.None? && datasetName.Some? ==>
      r == Success(GetRequest(c.apiUrl + "/datasets", Headers(c),
                              map["limit" := PInt(1), "tenant_id" := PStr(c.tenantId), "name" := PStr(datasetName.value)]))
    ensures datasetId.None? && datasetName.None? ==>
      r == Failure(ValueError("Must provide dataset_name or dataset_id"))
  {
    var params := map["limit" := PInt(1), "tenant_id" := PStr(c.tenantId)];
    if datasetId.Some? then
      var path := "/datasets" + "/" + datasetId.value;
      assert path == "/datasets/" + datasetId.value;
      var req := Get(c, path, Some(params));
      assert req.url == c.apiUrl + "/datasets/" + datasetId.value;
      assert req.params == params;
      Success(req)
    else if datasetName.Some? then
      var named := params["name" := PStr(datasetName.value)];
      var req := Get(c, "/datasets", Some(named));
      assert req.params == named;
      Success(req)
    else
      Failure(ValueError("Must provide dataset_name or dataset_id"))
  }

  datatype Dataset = Dataset(id: string, name: string)

  /** The decoded reply to `GET /datasets...`: a list (a lookup by name) or
      a single object (a lookup by id). */
  datatype DatasetReply = Listing(items: seq<Dataset>) | Single(item: Dataset)

  /** Python's `f"{x}"` of an optional string. */
  function ShowOptional(x: Option<string>): string
  {
    if x.Some? then x.value else "None"
  }

  /** The reply half of `read_dataset`: the first dataset of a non-empty
      list, the object itself, or `ValueError` for an empty list, whose
      message shows the name (`None` when looked up by id). */
  function ReadDatasetReply(datasetName: Option<string>, reply: DatasetReply): (r: Result<Dataset, Error>)
    ensures r.Failure? <==> reply == Listing([])
    ensures r.Failure? ==> r.error == ValueError("Dataset " + ShowOptional(datasetName) + " not found")
    ensures reply.Single? ==> r == Success(reply.item)
    ensures reply.Listing? && |reply.items| > 0 ==> r == Success(reply.items[0])
  {
    match reply
    case Listing(items) =>
      if |items| == 0 then Failure(ValueError("Dataset " + ShowOptional(datasetName) + " not found"))
      else Success(items[0])
    case Single(item) => Success(item)
  }

  /** `list_examples(dataset_id)`: `GET /examples`, filtered by dataset
      when an id is given. */
  function ListExamplesRequest(c: Settings, datasetId: Option<string>): (r: GetRequest)
    ensures r.url == c.apiUrl + "/examples"
    ensures r.headers == Headers(c)
    ensures datasetId.Some? ==>
      r.params == map["tenant_id" := PStr(c.tenantId), "dataset" := PStr(datasetId.value)]
    ensures datasetId.None? ==> r.params == map["tenant_id" := PStr(c.tenantId)]
  {
    var params := if datasetId.Some? then map["dataset" := PStr(datasetId.value)] else map[];
    var req := Get(c, "/examples", Some(params));
    assert req.params == QueryParams(c) + params;
    req
  }

  /** The `file` part of an upload: a path, or `(name, buffer)` holding the
      dataframe's CSV text (the buffer's content is not modelled). */
  datatype CsvFile = CsvPath(path: string) | CsvBuffer(name: string)

  datatype UploadRequest = UploadRequest(url: string, headers: map<string, string>, data: map<string, string>, file: CsvFile)

  /** The request half of `upload_csv`: `POST /datasets/upload` with the
      keys joined by commas, the description and the tenant as form data. */
  function UploadCsvRequest(c: Settings, file: CsvFile, description: string,
                            inputKeys: seq<string>, outputKeys: seq<string>): (r: UploadRequest)
    ensures r.url == c.apiUrl + "/datasets/upload"
    ensures r.headers == Headers(c)
    ensures r.file == file
    ensures r.data.Keys == {"input_keys", "output_keys", "description", "tenant_id"}
    ensures r.data["description"] == description && r.data["tenant_id"] == c.tenantId
    ensures |inputKeys| == 0 ==> r.data["input_keys"] == ""
    ensures |outputKeys| == 0 ==> r.data["output_keys"] == ""
  {
    UploadRequest(c.apiUrl + "/datasets/upload", Headers(c),
      map["input_keys" := Join(inputKeys, ','), "output_keys" := Join(outputKeys, ','),
          "description" := description, "tenant_id" := c.tenantId],
      file)
  }

  /** The comma-joined key lists of an upload decode back to the keys the
      caller gave, as long as there is at least one key and none holds a
      comma. */
  lemma UploadKeysRoundTrip(c: Settings, file: CsvFile, description: string,
                            inputKeys: seq<string>, outputKeys: seq<string>)
    requires |inputKeys| >= 1 && forall i | 0 <= i < |inputKeys| :: ',' !in inputKeys[i]
    requires |outputKeys| >= 1 && forall i | 0 <= i < |outputKeys| :: ',' !in outputKeys[i]
    ensures var r := UploadCsvRequest(c, file, description, inputKeys, outputKeys);
      Split(r.data["input_keys"], ',') == inputKeys && Split(r.data["output_keys"], ',') == outputKeys
  {
    SplitJoin(inputKeys, ',');
    SplitJoin(outputKeys, ',');
  }

  /** `file_name.split("/")[-1]` of the uploaded file's path or name. */
  function UploadFileName(file: CsvFile): string
  {
    match file
    case CsvPath(path) => LastPiece(path, '/')
    case CsvBuffer(name) => LastPiece(name, '/')
  }

  /** The file name in the "already exists" message is the base name: the
      longest `/`-free suffix of the path. */
  lemma UploadFileNameIsBaseName(file: CsvFile)
    ensures var path := if file.CsvPath? then file.path else file.name;
      var f := UploadFileName(file);
      && '/' !in f
      && |f| <= |path| && path[|path| - |f|..] == f
      && (|f| == |path| || path[|path| - |f| - 1] == '/')
  {
    match file
    case CsvPath(path) =>
      assert UploadFileName(file) == LastPiece(path, '/');
      LastPieceIsSuffix(path, '/');
    case CsvBuffer(name) =>
      assert UploadFileName(file) == LastPiece(name, '/');
      LastPieceIsSuffix(name, '/');
  }

  /** The reply half of `upload_csv`: a `detail` that mentions "already
      exists" becomes `ValueError` naming the file; otherwise the decoded
      dataset is returned. */
  function UploadCsvReply(file: CsvFile, detail: Option<string>, created: Dataset): (r: Result<Dataset, Error>)
    ensures r.Failure? <==> detail.Some? && Contains(detail.value, "already exists")
    ensures r.Failure? ==> r.error == ValueError("Dataset " + UploadFileName(file) + " already exists")
    ensures r.Success? ==> r.value == created
  {
    if detail.Some? && Contains(detail.value, "already exists") then
      Failure(ValueError("Dataset " + UploadFileName(file) + " already exists"))
    else Success(created)
  }

  /** `upload_dataframe`: the name must end in `.csv`, then every input key
      and then every output key must be a column; the first failed check
      raises and nothing is uploaded. Otherwise the frame is uploaded as
      `(name, buffer)` through `upload_csv`. */
  function UploadDataframe(c: Settings, columns: seq<string>, name: string, description: string,
                           inputKeys: seq<string>, outputKeys: seq<string>): (r: Result<UploadRequest, Error>)
    ensures !EndsWith(name, ".csv") ==> r == Failure(ValueError("Name must end with .csv"))
    ensures EndsWith(name, ".csv") && (exists i | 0 <= i < |inputKeys| :: inputKeys[i] !in columns) ==>
      r == Failure(ValueError("Input keys must be in dataframe columns"))
    ensures (&& EndsWith(name, ".csv")
             && (forall i | 0 <= i < |inputKeys| :: inputKeys[i] in columns)
             && (exists i | 0 <= i < |outputKeys| :: outputKeys[i] !in columns))
      ==> r == Failure(ValueError("Output keys must be in dataframe columns"))
    ensures r.Success? <==>
      && EndsWith(name, ".csv")
      && (forall i | 0 <= i < |inputKeys| :: inputKeys[i] in columns)
      && (forall i | 0 <= i < |outputKeys| :: outputKeys[i] in columns)
    ensures r.Success? ==>
      && r.value == UploadCsvRequest(c, CsvBuffer(name), description, inputKeys, outputKeys)
      && UploadFileName(r.value.file) == LastPiece(name, '/')
  {
    if !EndsWith(name, ".csv") then Failure(ValueError("Name must end with .csv"))
    else if !AllIn(inputKeys, columns) then Failure(ValueError("Input keys must be in dataframe columns"))
    else if !AllIn(outputKeys, columns) then Failure(ValueError("Output keys must be in dataframe columns"))
    else Success(UploadCsvRequest(c, CsvBuffer(name), description, inputKeys, outputKeys))
  }

  /** `all([key in columns for key in keys])`, scanning the keys in order. */
  function AllIn(keys: seq<string>, columns: seq<string>): (b: bool)
    ensures b <==> forall i | 0 <= i < |keys| :: keys[i] in columns
  {
    if |keys| == 0 then true
    else keys[0] in columns && AllIn(keys[1..], columns)
  }
}

=== FILE: evaluation.dfy ===
/** `run_on_dataset` and `arun_on_dataset`: the pre-flight guard, the
    default session name, and the aggregation of per-example outputs. The
    dataset lookup (`read_dataset` followed by `list_examples`) is an external
    call; its outcome is the parameter `listing`. The tracer a run creates is
    fresh; its initial `example_id` is the parameter `freshTracerId`. */
module Evaluation {
  import opened Values
  import opened Predictors
  import opened Runner
  import opened Aggregate
  import opened Worker
  import Text

  /** A finished run: the trace session's name and the result dict. The
      sequential runner keys it by example id, the worker pool by `str(id)`. */
  datatype DatasetRun<K> = DatasetRun(sessionName: string, results: map<K, seq<Outcome>>)

  /** `f"{dataset_name}{joiner}{class_name}-{num_repetitions}"`: the
      sequential runner joins with `-`, the asynchronous one with `_`. */
  function DefaultSessionName(datasetName: string, className: string, n: int, joiner: char): string
  {
    datasetName + [joiner] + className + "-" + Text.IntToDecimal(n)
  }

  /** The layout of the default session name: the dataset name and the
      joiner, then the class name and a `-`, then `f"{n}"`. */
  lemma DefaultSessionNameLayout(datasetName: string, className: string, n: int, joiner: char)
    ensures var name := DefaultSessionName(datasetName, className, n, joiner);
      && |datasetName| + 1 + |className| < |name|
      && name[..|datasetName| + 1] == datasetName + [joiner]
      && name[|datasetName| + 1..][..|className| + 1] == className + "-"
      && name[|datasetName| + |className| + 2..] == Text.IntToDecimal(n)
  {
    ConcatLayout(datasetName + [joiner], className + "-", Text.IntToDecimal(n));
  }

  /** Slicing `head + middle + rest` at the pieces' boundaries. */
  lemma ConcatLayout(head: string, middle: string, rest: string)
    ensures |head| + |middle| <= |head + middle + rest|
    ensures (head + middle + rest)[..|head|] == head
    ensures (head + middle + rest)[|head|..][..|middle|] == middle
    ensures (head + middle + rest)[|head| + |middle|..] == rest
  {
    var name := head + middle + rest;
    assert name[|head|..] == middle + rest;
  }

  /** The default session name records its inputs: it starts with the
      dataset name and the joiner (so the two runners' defaults differ at
      index `|datasetName|`), the class name and a `-` follow, the rest is
      exactly `f"{n}"`, and for a non-negative repetition count the text
      after its last `-` parses back to that count. */
  lemma DefaultSessionNameRecordsRepetitions(datasetName: string, className: string, n: int, joiner: char)
    ensures var name := DefaultSessionName(datasetName, className, n, joiner);
      && |datasetName| < |name| && name[..|datasetName| + 1] == datasetName + [joiner]
      && |datasetName| + 1 + |className| < |name|
      && name[|datasetName| + 1..][..|className| + 1] == className + "-"
      && name[|datasetName| + |className| + 2..] == Text.IntToDecimal(n)
      && (n >= 0 ==> Text.ParseInt(Text.LastPiece(name, '-')) == n)
  {
    DefaultSessionNameLayout(datasetName, className, n, joiner);
    if n >= 0 {
      var prefix := datasetName + [joiner] + className;
      var digits := Text.NatToDecimal(n);
      assert DefaultSessionName(datasetName, className, n, joiner) == prefix + ['-'] + digits;
      Text.LastPieceOfConcat(prefix, digits, '-');
      Text.SplitWithoutSeparator(digits, '-');
      Text.IntToDecimalRoundTrip(n);
    }
  }

  /** The session a run traces into: the caller's name when one is given,
      otherwise a default built from the dataset name, the joiner, the
      predictor's class name and the repetition count. */
  function SessionNameFor(given: Option<string>, datasetName: string, p: Predictor, n: int, joiner: char): (name: string)
    ensures given.Some? ==> name == given.value
    ensures given.None? ==> |datasetName| < |name| && name[..|datasetName| + 1] == datasetName + [joiner]
    ensures given.None? ==>
      |datasetName| + 1 + |p.className| < |name| && name[|datasetName| + 1..][..|p.className| + 1] == p.className + "-"
    ensures given.None? ==> name[|datasetName| + |p.className| + 2..] == Text.IntToDecimal(n)
    ensures given.None? && n >= 0 ==> Text.ParseInt(Text.LastPiece(name, '-')) == n
  {
    if given.Some? then given.value
    else
      DefaultSessionNameRecordsRepetitions(datasetName, p.className, n, joiner);
      DefaultSessionName(datasetName, p.className, n, joiner)
  }

  /** The closed form of `run_on_dataset` as written. Any language model is
      refused before the dataset is looked up. The loop runs every example,
      but the write `results[example.id] = result` sits after it, so only the
      last example is recorded; with no examples, evaluating `result` fails
      because the loop never bound it. */
  function RunOnDatasetAsWritten(datasetName: string, p: Predictor, n: int, sessionName: Option<string>,
                                 listing: Result<seq<Example>, Error>, freshTracerId: Option<ExampleId>)
    : Result<DatasetRun<ExampleId>, Error>
  {
    if p.kind.IsLanguageModel() then Failure(NotImplemented)
    else if listing.Failure? then Failure(listing.error)
    else if |listing.value| == 0 then Failure(UnboundLocal("result"))
    else
      var last := listing.value[|listing.value| - 1];
      Success(DatasetRun(SessionNameFor(sessionName, datasetName, p, n, '-'),
        map[last.id := Repetitions(Blocking, last, freshTracerId, p, n).outputs]))
  }

  /** `run_on_dataset`, statement by statement: one tracer for the whole
      run, the blocking runner per example, and the single write after the
      loop (`example` and `result` are unbound until the loop assigns them). */
  method RunOnDataset(datasetName: string, p: Predictor, n: int, sessionName: Option<string>,
                      listing: Result<seq<Example>, Error>, freshTracerId: Option<ExampleId>)
    returns (r: Result<DatasetRun<ExampleId>, Error>)
    ensures p.kind.IsLanguageModel() ==> r == Failure(NotImplemented)
    ensures p.kind == Chain && listing.Failure? ==> r == Failure(listing.error)
    ensures p.kind == Chain && listing == Success([]) ==> r == Failure(UnboundLocal("result"))
    ensures p.kind == Chain && listing.Success? && |listing.value| > 0 ==>
      var last := listing.value[|listing.value| - 1];
      && r.Success?
      && r.value.sessionName == SessionNameFor(sessionName, datasetName, p, n, '-')
      && r.value.results.Keys == {last.id}
      && r.value.results[last.id] == Repetitions(Blocking, last, freshTracerId, p, n).outputs
    ensures r == RunOnDatasetAsWritten(datasetName, p, n, sessionName, listing, freshTracerId)
  {
    if p.kind.IsLanguageModel() {
      return Failure(NotImplemented);
    }
    var session := SessionNameFor(sessionName, datasetName, p, n, '-');
    if listing.Failure? {
      return Failure(listing.error);
    }
    var example, result := RunEachExample(listing.value, p, n, freshTracerId);
    var results: map<ExampleId, seq<Outcome>> := map[];
    if result.None? || example.None? {
      return Failure(UnboundLocal("result"));
    }
    results := results[example.value.id := result.value];
    r := Success(DatasetRun(session, results));
  }

  /** The `for` loop of `run_on_dataset`: one tracer for the whole run and
      the blocking runner per example. After the loop, `example` and `result`
      hold the last example and its outputs, and are unbound when there were
      no examples. */
  method RunEachExample(examples: seq<Example>, p: Predictor, n: int, freshTracerId: Option<ExampleId>)
    returns (example: Option<Example>, result: Option<seq<Outcome>>)
    ensures |examples| == 0 ==> example.None? && result.None?
    ensures |examples| > 0 ==>
      var last := examples[|examples| - 1];
      example == Some(last) && result == Some(Repetitions(Blocking, last, freshTracerId, p, n).outputs)
  {
    var tracerId := freshTracerId;
    example := None;
    result := None;
    for i := 0 to |examples|
      invariant i == 0 ==> example.None? && result.None?
      invariant i > 0 ==> example == Some(examples[i - 1])
      invariant i > 0 ==> result == Some(Repetitions(Blocking, examples[i - 1], freshTracerId, p, n).outputs)
      invariant tracerId == if n >= 1 || i == 0 then freshTracerId else Some(examples[i - 1].id)
    {
      var outputs, next := RunLlmOrChain(Blocking, examples[i], tracerId, p, n);
      if n < 1 {
        NoRepetitionsNoOutputs(Blocking, examples[i], tracerId, freshTracerId, p, n);
      }
      example := Some(examples[i]);
      result := Some(outputs);
      tracerId := next;
    }
  }

  /** `id` of each example, in order. */
  function IdsOf(es: seq<Example>): (ids: seq<ExampleId>)
    ensures |ids| == |es|
    ensures forall i | 0 <= i < |es| :: ids[i] == es[i].id
  {
    seq(|es|, i requires 0 <= i < |es| => es[i].id)
  }

  function ScopedOutputsOf(es: seq<Example>, p: Predictor, n: int): (outs: seq<seq<Outcome>>)
    ensures |outs| == |es|
    ensures forall i | 0 <= i < |es| :: outs[i] == ScopedRepetitions(Blocking, es[i], None, p, n).outputs
  {
    seq(|es|, i requires 0 <= i < |es| => ScopedRepetitions(Blocking, es[i], None, p, n).outputs)
  }

  /** The corrected sequential runner: the same guard and
      session name, the scoped runner per example, and one write per
      example, so every example is recorded and an empty dataset gives an
      empty dict. */
  function RunOnDatasetAll(datasetName: string, p: Predictor, n: int, sessionName: Option<string>,
                           listing: Result<seq<Example>, Error>)
    : (r: Result<DatasetRun<ExampleId>, Error>)
    ensures p.kind.IsLanguageModel() ==> r == Failure(NotImplemented)
    ensures p.kind == Chain && listing.Failure? ==> r == Failure(listing.error)
    ensures p.kind == Chain && listing.Success? ==>
      && r.Success?
      && r.value.sessionName == SessionNameFor(sessionName, datasetName, p, n, '-')
      && (forall id :: id in r.value.results <==> exists i | 0 <= i < |listing.value| :: listing.value[i].id == id)
  {
    if p.kind.IsLanguageModel() then Failure(NotImplemented)
    else if listing.Failure? then Failure(listing.error)
    else
      ScopedRecordingKeys(listing.value, p, n);
      var results: map<ExampleId, seq<Outcome>> := Assign(map[], IdsOf(listing.value), ScopedOutputsOf(listing.value, p, n));
      Success(DatasetRun(SessionNameFor(sessionName, datasetName, p, n, '-'), results))
  }

  /** The corrected runner records every example and nothing else, each
      under its own id, with one outcome per repetition, and every recorded
      repetition ran while the tracer named that example. */
  lemma RunOnDatasetAllRecordsEveryExample(datasetName: string, p: Predictor, n: int, sessionName: Option<string>,
                                           es: seq<Example>)
    requires p.kind == Chain
    ensures var r := RunOnDatasetAll(datasetName, p, n, sessionName, Success(es));
      && r.Success?
      && (forall id :: id in r.value.results <==> exists i | 0 <= i < |es| :: es[i].id == id)
      && (forall i | 0 <= i < |es| :: |r.value.results[es[i].id]| == Reps(n))
      && (forall i, k | 0 <= i < |es| && LastWrite(IdsOf(es), i) && 0 <= k < Reps(n) ::
            r.value.results[es[i].id][k] == Catch(Invoke(Blocking, p, es[i].inputs, Some(es[i].id), k)))
  {
    var results := Assign(map[], IdsOf(es), ScopedOutputsOf(es, p, n));
    assert RunOnDatasetAll(datasetName, p, n, sessionName, Success(es)).value.results == results;
    ScopedRecordingKeys(es, p, n);
    ScopedRecordingValues(es, p, n);
  }

  /** The ids of the corrected recording are exactly the examples' ids. */
  lemma ScopedRecordingKeys(es: seq<Example>, p: Predictor, n: int)
    ensures forall id :: id in Assign(map[], IdsOf(es), ScopedOutputsOf(es, p, n)) <==> exists i | 0 <= i < |es| :: es[i].id == id
  {
    var ids := IdsOf(es);
    var outs := ScopedOutputsOf(es, p, n);
    var results := Assign(map[], ids, outs);
    AssignKeys(map[], ids, outs);
    forall id
      ensures id in results <==> exists i | 0 <= i < |es| :: es[i].id == id
    {
      if id in ids {
        var i :| 0 <= i < |ids| && ids[i] == id;
        assert es[i].id == id;
      }
      if exists i | 0 <= i < |es| :: es[i].id == id {
        var i :| 0 <= i < |es| && es[i].id == id;
        assert ids[i] == id;
      }
    }
  }

  /** Every list of the corrected recording has one outcome per repetition,
      and the last write to an id holds its example's scoped runs. */
  lemma ScopedRecordingValues(es: seq<Example>, p: Predictor, n: int)
    ensures var results := Assign(map[], IdsOf(es), ScopedOutputsOf(es, p, n));
      && (forall i | 0 <= i < |es| :: es[i].id in results && |results[es[i].id]| == Reps(n))
      && (forall i, k | 0 <= i < |es| && LastWrite(IdsOf(es), i) && 0 <= k < Reps(n) ::
            results[es[i].id][k] == Catch(Invoke(Blocking, p, es[i].inputs, Some(es[i].id), k)))
  {
    var ids := IdsOf(es);
    var outs := ScopedOutputsOf(es, p, n);
    var results := Assign(map[], ids, outs);
    AssignLastWrite(map[], ids, outs);
    AssignValues(map[], ids, outs);
    forall i | 0 <= i < |es|
      ensures es[i].id in results && |results[es[i].id]| == Reps(n)
    {
      assert ids[i] == es[i].id;
      var v := results[ids[i]];
      var j :| 0 <= j < |outs| && outs[j] == v;
      assert |outs[j]| == |ScopedRepetitions(Blocking, es[j], None, p, n).outputs| == Reps(n);
    }
    forall i, k | 0 <= i < |es| && LastWrite(ids, i) && 0 <= k < Reps(n)
      ensures results[es[i].id][k] == Catch(Invoke(Blocking, p, es[i].inputs, Some(es[i].id), k))
    {
      assert ids[i] == es[i].id;
      assert results[ids[i]] == outs[i] == ScopedRepetitions(Blocking, es[i], None, p, n).outputs;
    }
  }

  /** The recording bug, exhibited on two examples "a" and "b" with one
      repetition: the runner as written returns a dict without "a", while
      the corrected runner records both. */
  lemma LastExampleOnlyCounterexample(p: Predictor)
    requires p.kind == Chain
    ensures var a := Example(Uuid("a"), map[]);
      var b := Example(Uuid("b"), map[]);
      && RunOnDatasetAsWritten("ds", p, 1, None, Success([a, b]), None).Success?
      && Uuid("a") !in RunOnDatasetAsWritten("ds", p, 1, None, Success([a, b]), None).value.results
      && Uuid("a") in RunOnDatasetAll("ds", p, 1, None, Success([a, b])).value.results
      && Uuid("b") in RunOnDatasetAll("ds", p, 1, None, Success([a, b])).value.results
  {
    var a := Example(Uuid("a"), map[]);
    var b := Example(Uuid("b"), map[]);
    RunOnDatasetAllRecordsEveryExample("ds", p, 1, None, [a, b]);
    assert [a, b][0].id == Uuid("a") && [a, b][1].id == Uuid("b");
  }

  /** The queue `arun_on_dataset` feeds a single worker: every example in
      listing order, then (after `queue.join()`) one `None` marker. */
  function QueueFor(es: seq<Example>): (q: seq<Option<Example>>)
    ensures |q| == |es| + 1 && q[|es|] == None
    ensures Work(q) == es
  {
    if |es| == 0 then [None]
    else
      var rest := QueueFor(es[1..]);
      var q := [Some(es[0])] + rest;
      assert q[0] == Some(es[0]) && q[1..] == rest;
      assert Work(q) == [es[0]] + Work(rest);
      assert es == [es[0]] + es[1..];
      q
  }

  /** `arun_on_dataset` with `num_workers == 1`: the same guard as the
      sequential runner, the `_`-joined default session name, one worker
      with a fresh tracer draining the examples and then its marker, and
      the worker's dict as the result. */
  method ArunOnDatasetOneWorker(datasetName: string, p: Predictor, n: int, sessionName: Option<string>,
                                listing: Result<seq<Example>, Error>, freshTracerId: Option<ExampleId>)
    returns (r: Result<DatasetRun<string>, Error>)
    ensures p.kind.IsLanguageModel() ==> r == Failure(NotImplemented)
    ensures p.kind == Chain && listing.Failure? ==> r == Failure(listing.error)
    ensures p.kind == Chain && listing.Success? ==>
      && r.Success?
      && r.value.sessionName == SessionNameFor(sessionName, datasetName, p, n, '_')
      && r.value.results == Assign(map[], KeysOf(listing.value), OutputsOf(Suspending, listing.value, freshTracerId, p, n))
  {
    if p.kind.IsLanguageModel() {
      return Failure(NotImplemented);
    }
    var session := SessionNameFor(sessionName, datasetName, p, n, '_');
    if listing.Failure? {
      return Failure(listing.error);
    }
    var results, numProcessed, tasksDone, tracerId, stopped := Drain(QueueFor(listing.value), freshTracerId, p, n, map[], 0);
    r := Success(DatasetRun(session, results));
  }

  /** With one worker the asynchronous runner records every example of the
      listing, once each, with `num_processed` equal to the number of
      examples and the worker stopped by its marker. */
  lemma OneWorkerProcessesEveryExample(es: seq<Example>, tracerId: Option<ExampleId>, p: Predictor, n: int)
    ensures var results := Assign(map[], KeysOf(es), OutputsOf(Suspending, es, tracerId, p, n));
      && (forall key :: key in results <==> exists i | 0 <= i < |es| :: key == Str(es[i].id))
      && (forall i | 0 <= i < |es| :: |results[Str(es[i].id)]| == Reps(n))
      && |Work(QueueFor(es))| == |es| < |QueueFor(es)|
  {
    Recorded(map[], es, tracerId, p, n);
  }

  /** The corrected sequential runner and the single-worker asynchronous
      runner agree on the shape of their results: the same examples are
      recorded (one by id, the other by `str(id)`), with equally long lists. */
  lemma SequentialMatchesWorkerShape(datasetName: string, p: Predictor, n: int, sessionName: Option<string>,
                                     es: seq<Example>, tracerId: Option<ExampleId>)
    requires p.kind == Chain
    ensures var seqRun := RunOnDatasetAll(datasetName, p, n, sessionName, Success(es)).value.results;
      var pooled := Assign(map[], KeysOf(es), OutputsOf(Suspending, es, tracerId, p, n));
      && (forall id: ExampleId :: id in seqRun <==> Str(id) in pooled)
      && (forall id | id in seqRun :: |seqRun[id]| == |pooled[Str(id)]| == Reps(n))
  {
    assert RunOnDatasetAll(datasetName, p, n, sessionName, Success(es)).value.results
      == Assign(map[], IdsOf(es), ScopedOutputsOf(es, p, n));
    ScopedPooledKeys(es, tracerId, p, n);
    ScopedPooledLengths(es, tracerId, p, n);
  }

  /** The corrected recording holds an id exactly when the one-worker
      recording holds its `str`. */
  lemma ScopedPooledKeys(es: seq<Example>, tracerId: Option<ExampleId>, p: Predictor, n: int)
    ensures var scoped := Assign(map[], IdsOf(es), ScopedOutputsOf(es, p, n));
      var pooled := Assign(map[], KeysOf(es), OutputsOf(Suspending, es, tracerId, p, n));
      forall id: ExampleId :: id in scoped <==> Str(id) in pooled
  {
    var pooled := Assign(map[], KeysOf(es), OutputsOf(Suspending, es, tracerId, p, n));
    ScopedRecordingKeys(es, p, n);
    RecordedKeys(map[], es, tracerId, p, n);
    forall id: ExampleId
      ensures Str(id) in pooled ==> exists i | 0 <= i < |es| :: es[i].id == id
    {
      if Str(id) in pooled {
        var i :| 0 <= i < |es| && Str(id) == Str(es[i].id);
        StrInjective(id, es[i].id);
      }
    }
  }

  /** Under an id both recordings hold, their lists have one outcome per
      repetition. */
  lemma ScopedPooledLengths(es: seq<Example>, tracerId: Option<ExampleId>, p: Predictor, n: int)
    ensures var scoped := Assign(map[], IdsOf(es), ScopedOutputsOf(es, p, n));
      var pooled := Assign(map[], KeysOf(es), OutputsOf(Suspending, es, tracerId, p, n));
      forall id | id in scoped :: Str(id) in pooled && |scoped[id]| == |pooled[Str(id)]| == Reps(n)
  {
    var scoped := Assign(map[], IdsOf(es), ScopedOutputsOf(es, p, n));
    var pooled := Assign(map[], KeysOf(es), OutputsOf(Suspending, es, tracerId, p, n));
    ScopedRecordingKeys(es, p, n);
    ScopedRecordingValues(es, p, n);
    RecordedLengths(map[], es, tracerId, p, n);
    forall id | id in scoped
      ensures Str(id) in pooled && |scoped[id]| == |pooled[Str(id)]| == Reps(n)
    {
      var i :| 0 <= i < |es| && es[i].id == id;
    }
  }

}

=== FILE: predictor.dfy ===
/** The predictor under evaluation and the kind dispatch of `run_llm` /
    `_arun_llm`. The model or chain itself is foreign code: it is a pair of
    functions (blocking and suspending) from the call the client makes, the
    tracer's current `example_id` and the repetition number to what the call
    did. */
module Predictors {
  import opened Values
  import Text

  /** The four shapes `isinstance` tells apart: a `BaseLLM`, a
      `BaseChatModel`, some other `BaseLanguageModel`, and a `Chain` (which is
      not a language model). */
  datatype Kind = Llm | ChatModel | OtherLanguageModel | Chain {
    predicate IsLanguageModel() {
      !Chain?
    }
  }

  /** What the client hands to the predictor: the `prompts` input of a
      completion or chat model (a chat model parses each prompt into messages
      itself), or the whole input mapping of a chain. */
  datatype Call = Generate(prompts: Value) | GenerateChat(prompts: Value) | RunChain(inputs: Inputs)

  /** Which of the twin code paths runs: `generate`/`run` or
      `agenerate`/`arun`. */
  datatype Mode = Blocking | Suspending

  /** A predictor: its kind, the module and class name Python reports for
      it, and its blocking and suspending behaviour. The repetition number
      lets one predictor answer differently on different repetitions. */
  datatype Predictor = Predictor(
    kind: Kind,
    moduleName: string,
    className: string,
    blocking: (Call, Option<ExampleId>, nat) -> Attempt,
    suspending: (Call, Option<ExampleId>, nat) -> Attempt)
  {
    function Respond(mode: Mode, call: Call, tracerId: Option<ExampleId>, rep: nat): Attempt
    {
      match mode
      case Blocking => blocking(call, tracerId, rep)
      case Suspending => suspending(call, tracerId, rep)
    }

    /** `str(type(llm))`. */
    function TypeRepr(): string
    {
      "<class '" + moduleName + "." + className + "'>"
    }
  }

  /** `str(KeyError("prompts"))`: Python quotes the missing key. */
  const MissingPromptsMessage := "'prompts'"

  function UnsupportedMessage(p: Predictor): string
  {
    "Unsupported LLM type " + p.TypeRepr()
  }

  /** `run_llm` (blocking) and `_arun_llm` (suspending): a completion or chat
      model gets `inputs["prompts"]`, which raises `KeyError` when the key is
      missing; anything else raises `ValueError` naming its type. */
  function RunLlm(mode: Mode, p: Predictor, inputs: Inputs, tracerId: Option<ExampleId>, rep: nat): (a: Attempt)
    ensures p.kind !in {Llm, ChatModel} ==> a == Raised(UnsupportedMessage(p))
    ensures p.kind in {Llm, ChatModel} && "prompts" !in inputs ==> a == Raised(MissingPromptsMessage)
    ensures p.kind == Llm && "prompts" in inputs ==> a == p.Respond(mode, Generate(inputs["prompts"]), tracerId, rep)
    ensures p.kind == ChatModel && "prompts" in inputs ==> a == p.Respond(mode, GenerateChat(inputs["prompts"]), tracerId, rep)
  {
    match p.kind
    case Llm =>
      if "prompts" in inputs then p.Respond(mode, Generate(inputs["prompts"]), tracerId, rep)
      else Raised(MissingPromptsMessage)
    case ChatModel =>
      if "prompts" in inputs then p.Respond(mode, GenerateChat(inputs["prompts"]), tracerId, rep)
      else Raised(MissingPromptsMessage)
    case _ => Raised(UnsupportedMessage(p))
  }

  /** The body of one repetition's `try`: a language model goes through
      `RunLlm`, a chain gets the example's inputs unchanged. Per kind: a chain
      is called with the whole mapping, a completion or chat model with its
      `prompts` input (or the call raises before reaching it), and any other
      language model raises without being called. */
  function Invoke(mode: Mode, p: Predictor, inputs: Inputs, tracerId: Option<ExampleId>, rep: nat): (a: Attempt)
    ensures p.kind == Chain ==> a == p.Respond(mode, RunChain(inputs), tracerId, rep)
    ensures p.kind == Llm && "prompts" in inputs ==> a == p.Respond(mode, Generate(inputs["prompts"]), tracerId, rep)
    ensures p.kind == ChatModel && "prompts" in inputs ==> a == p.Respond(mode, GenerateChat(inputs["prompts"]), tracerId, rep)
    ensures p.kind.IsLanguageModel() && p.kind != OtherLanguageModel && "prompts" !in inputs ==> a == Raised(MissingPromptsMessage)
    ensures p.kind == OtherLanguageModel ==> a == Raised(UnsupportedMessage(p))
  {
    if p.kind.IsLanguageModel() then RunLlm(mode, p, inputs, tracerId, rep)
    else p.Respond(mode, RunChain(inputs), tracerId, rep)
  }

  /** A language model that is neither a completion nor a chat model fails
      every call with the same message, whatever the inputs, the tracer state
      or the repetition, and the message names the model's class. */
  lemma UnsupportedKindAlwaysRaises(mode: Mode, p: Predictor, inputs: Inputs, tracerId: Option<ExampleId>, rep: nat)
    requires p.kind == OtherLanguageModel
    ensures Invoke(mode, p, inputs, tracerId, rep) == Raised(UnsupportedMessage(p))
    ensures Text.EndsWith(Invoke(mode, p, inputs, tracerId, rep).message, p.className + "'>")
  {
    var m := UnsupportedMessage(p);
    var suffix := p.className + "'>";
    assert m == ("Unsupported LLM type <class '" + p.moduleName + ".") + suffix;
    assert m[|m| - |suffix|..] == suffix;
  }

  /** Whatever the predictor answers, what it is asked is fixed by its kind
      and the example's inputs: a call reaches it only as `RunChain` of the
      inputs for a chain, or as `Generate`/`GenerateChat` of the `prompts`
      input for a completion or chat model, and two predictors that answer
      that call alike get the same attempt. */
  lemma InvokeDependsOnlyOnTheCall(mode: Mode, p: Predictor, q: Predictor, inputs: Inputs,
                                   tracerId: Option<ExampleId>, rep: nat)
    requires p.kind == q.kind && p.TypeRepr() == q.TypeRepr()
    requires p.kind == Chain ==> p.Respond(mode, RunChain(inputs), tracerId, rep) == q.Respond(mode, RunChain(inputs), tracerId, rep)
    requires p.kind == Llm && "prompts" in inputs ==>
      p.Respond(mode, Generate(inputs["prompts"]), tracerId, rep) == q.Respond(mode, Generate(inputs["prompts"]), tracerId, rep)
    requires p.kind == ChatModel && "prompts" in inputs ==>
      p.Respond(mode, GenerateChat(inputs["prompts"]), tracerId, rep) == q.Respond(mode, GenerateChat(inputs["prompts"]), tracerId, rep)
    ensures Invoke(mode, p, inputs, tracerId, rep) == Invoke(mode, q, inputs, tracerId, rep)
  {
  }
}

=== FILE: runner.dfy ===
/** The per-example runner `run_llm_or_chain` and its suspending twin
    `_arun_llm_or_chain`. The tracer's `example_id` is the only tracer state
    the runner touches, so it is threaded in and out as a value. */
module Runner {
  import opened Values
  import opened Predictors

  /** `range(n)` runs `n` times when `n` is positive and not at all otherwise. */
  function Reps(n: int): nat
  {
    if n > 0 then n else 0
  }

  /** What a run leaves behind: the output list and the tracer's `example_id`. */
  datatype ExampleRun = ExampleRun(outputs: seq<Outcome>, tracerId: Option<ExampleId>)

  /** The tracer's `example_id` while repetition `k` is invoked. The runner
      sets it to the example's id once, before the loop, and the `finally`
      of every repetition puts the saved value back, so only repetition 0
      sees the example's id. */
  function TracerIdDuring(e: Example, saved: Option<ExampleId>, k: nat): Option<ExampleId>
  {
    if k == 0 then Some(e.id) else saved
  }

  /** The closed form of the runner as written: repetition `k` is invoked
      with the tracer state above and its outcome (or error envelope) fills
      slot `k`; the tracer ends on the saved value if the loop ran at all,
      and on the example's id otherwise. */
  function Repetitions(mode: Mode, e: Example, saved: Option<ExampleId>, p: Predictor, n: int): ExampleRun
  {
    ExampleRun(
      seq(Reps(n), k requires 0 <= k => Catch(Invoke(mode, p, e.inputs, TracerIdDuring(e, saved, k), k))),
      if Reps(n) > 0 then saved else Some(e.id))
  }

  /** `run_llm_or_chain` (`mode == Blocking`) and `_arun_llm_or_chain`
      (`mode == Suspending`), statement by statement: save the tracer id,
      set it to the example's id, then per repetition try the predictor,
      append its output or `{"Error": str(e)}`, and restore in `finally`.
      With one or more repetitions the tracer is left as the runner found it,
      so consecutive runs on one tracer all start from the same saved id. */
  method RunLlmOrChain(mode: Mode, e: Example, tracerId: Option<ExampleId>, p: Predictor, n: int)
    returns (outputs: seq<Outcome>, finalTracerId: Option<ExampleId>)
    ensures |outputs| == Reps(n)
    ensures forall k | 0 <= k < |outputs| ::
      outputs[k] == Catch(Invoke(mode, p, e.inputs, if k == 0 then Some(e.id) else tracerId, k))
    ensures forall k | 0 <= k < |outputs| ::
      outputs[k].ErrorEnvelope? <==> Invoke(mode, p, e.inputs, TracerIdDuring(e, tracerId, k), k).Raised?
    ensures n >= 1 ==> finalTracerId == tracerId
    ensures n < 1 ==> finalTracerId == Some(e.id)
    ensures ExampleRun(outputs, finalTracerId) == Repetitions(mode, e, tracerId, p, n)
  {
    var previous := tracerId;
    var current := Some(e.id);
    outputs := [];
    for rep := 0 to Reps(n)
      invariant |outputs| == rep
      invariant forall k | 0 <= k < rep ::
        outputs[k] == Catch(Invoke(mode, p, e.inputs, TracerIdDuring(e, previous, k), k))
      invariant current == if rep == 0 then Some(e.id) else previous
    {
      var attempt := Invoke(mode, p, e.inputs, current, rep);
      outputs := outputs + [Catch(attempt)];
      current := previous;
    }
    finalTracerId := current;
  }

  /** The corrected runner: the example's id is set once, every
      repetition runs under it, and the saved id is restored once after the
      loop, also when the loop does not run. */
  method RunLlmOrChainScoped(mode: Mode, e: Example, tracerId: Option<ExampleId>, p: Predictor, n: int)
    returns (outputs: seq<Outcome>, finalTracerId: Option<ExampleId>)
    ensures |outputs| == Reps(n)
    ensures forall k | 0 <= k < |outputs| :: outputs[k] == Catch(Invoke(mode, p, e.inputs, Some(e.id), k))
    ensures finalTracerId == tracerId
    ensures ExampleRun(outputs, finalTracerId) == ScopedRepetitions(mode, e, tracerId, p, n)
  {
    var previous := tracerId;
    var current := Some(e.id);
    outputs := [];
    for rep := 0 to Reps(n)
      invariant |outputs| == rep
      invariant forall k | 0 <= k < rep :: outputs[k] == Catch(Invoke(mode, p, e.inputs, Some(e.id), k))
      invariant current == Some(e.id)
    {
      var attempt := Invoke(mode, p, e.inputs, current, rep);
      outputs := outputs + [Catch(attempt)];
    }
    current := previous;
    finalTracerId := current;
  }

  function ScopedRepetitions(mode: Mode, e: Example, saved: Option<ExampleId>, p: Predictor, n: int): ExampleRun
  {
    ExampleRun(seq(Reps(n), k requires 0 <= k => Catch(Invoke(mode, p, e.inputs, Some(e.id), k))), saved)
  }

  /** When the runner does not repeat at all, its (empty) output does not
      depend on the tracer state it starts from. */
  lemma NoRepetitionsNoOutputs(mode: Mode, e: Example, a: Option<ExampleId>, b: Option<ExampleId>, p: Predictor, n: int)
    requires n < 1
    ensures Repetitions(mode, e, a, p, n).outputs == Repetitions(mode, e, b, p, n).outputs == []
  {
  }

  /** A probe predictor: a chain that answers with the tracer id it sees,
      `[]` for no id and `[text]` for an example's id. */
  function Observed(t: Option<ExampleId>): Value
  {
    match t
    case None => VList([])
    case Some(id) => VList([VStr(Str(id))])
  }

  function Probe(): Predictor
  {
    Predictor(Chain, "probe", "Probe",
      (c: Call, t: Option<ExampleId>, r: nat) => Returned(Observed(t)),
      (c: Call, t: Option<ExampleId>, r: nat) => Returned(Observed(t)))
  }

  /** Only the first repetition is recorded against the example: repetition
      `k` sees the example's id exactly when `k == 0` or the tracer already
      held that id before the runner started. */
  lemma OnlyFirstRepetitionTagged(mode: Mode, e: Example, saved: Option<ExampleId>, n: int, k: nat)
    requires k < Reps(n)
    ensures Repetitions(mode, e, saved, Probe(), n).outputs[k] == Output(Observed(Some(e.id)))
      <==> k == 0 || saved == Some(e.id)
  {
    var out := Repetitions(mode, e, saved, Probe(), n).outputs[k];
    assert out == Output(Observed(TracerIdDuring(e, saved, k)));
    if k != 0 && saved.Some? && out == Output(Observed(Some(e.id))) {
      assert Observed(saved) == Observed(Some(e.id));
      assert Str(saved.value) == Str(e.id);
      StrInjective(saved.value, e.id);
    }
  }

  /** A language model of an unsupported kind does not abort the runner:
      every repetition's slot holds the `ValueError` message. */
  lemma {:induction false} UnsupportedKindFillsEverySlot(mode: Mode, e: Example, saved: Option<ExampleId>, p: Predictor, n: int)
    requires p.kind == OtherLanguageModel
    ensures var outs := Repetitions(mode, e, saved, p, n).outputs;
      && |outs| == Reps(n)
      && forall k | 0 <= k < |outs| :: outs[k] == ErrorEnvelope(UnsupportedMessage(p))
  {
    var outs := Repetitions(mode, e, saved, p, n).outputs;
    forall k | 0 <= k < |outs|
      ensures outs[k] == ErrorEnvelope(UnsupportedMessage(p))
    {
      UnsupportedKindAlwaysRaises(mode, p, e.inputs, TracerIdDuring(e, saved, k), k);
    }
  }

  /** The restore inside the loop, exhibited: with no id saved, the second
      of two repetitions runs with no example id at all, and a run with zero
      repetitions leaves the tracer pointing at the example. The scoped runner
      tags both repetitions and restores in both cases. */
  lemma RestoreInsideLoopCounterexample(mode: Mode)
    ensures var e := Example(Uuid("a"), map[]);
      && Repetitions(mode, e, None, Probe(), 2).outputs[1] == Output(VList([]))
      && Repetitions(mode, e, None, Probe(), 0).tracerId == Some(Uuid("a"))
      && ScopedRepetitions(mode, e, None, Probe(), 2).outputs[1] == Output(VList([VStr("a")]))
      && ScopedRepetitions(mode, e, None, Probe(), 0).tracerId == None
  {
  }
}

=== FILE: text.dfy ===
/** The string operations the client performs with Python's `str` methods:
    `sep.join(parts)`, `s.split(sep)`, `s.endswith(suffix)`, `sub in s` and
    `f"{n}"` for an integer, each with the property that pins it down. */
module Text {

  /** The position of the first `c` in `s`, or `|s|` when there is none. */
  function FirstIndex(s: string, c: char): (i: nat)
    ensures i <= |s|
    ensures i < |s| ==> s[i] == c
  {
    if |s| == 0 then 0
    else if s[0] == c then 0
    else 1 + FirstIndex(s[1..], c)
  }

  /** The search runs off the end exactly when there is no `c`. */
  lemma {:induction false} FirstIndexMissing(s: string, c: char)
    ensures FirstIndex(s, c) == |s| <==> c !in s
  {
    if |s| > 0 && s[0] != c {
      FirstIndexMissing(s[1..], c);
      assert s == [s[0]] + s[1..];
    }
  }

  /** In `x + c + y` with no `c` in `x`, the first `c` is the one after `x`. */
  lemma {:induction false} FirstIndexAfterFree(x: string, y: string, c: char)
    requires c !in x
    ensures FirstIndex(x + [c] + y, c) == |x|
  {
    var s := x + [c] + y;
    if |x| == 0 {
      assert s[0] == c;
    } else {
      assert s[0] == x[0] && s[1..] == x[1..] + [c] + y;
      FirstIndexAfterFree(x[1..], y, c);
    }
  }

  /** Text appended after a `c` does not move the first `c`. */
  lemma {:induction false} FirstIndexPrefix(x: string, z: string, c: char)
    requires FirstIndex(x, c) < |x|
    ensures FirstIndex(x + z, c) == FirstIndex(x, c)
  {
    var s := x + z;
    assert s[0] == x[0];
    if x[0] != c {
      assert s[1..] == x[1..] + z;
      FirstIndexPrefix(x[1..], z, c);
    }
  }

  /** Python's `s.split(sep)` for a one-character separator: the text
      before the first separator, then the split of the rest; a string
      without the separator is one piece (`"".split(",") == [""]`). */
  function Split(s: string, sep: char): (parts: seq<string>)
    ensures |parts| >= 1
    decreases |s|
  {
    var i := FirstIndex(s, sep);
    if i == |s| then [s] else [s[..i]] + Split(s[i + 1..], sep)
  }

  /** Python's `sep.join(parts)`. */
  function Join(parts: seq<string>, sep: char): string
  {
    if |parts| == 0 then ""
    else if |parts| == 1 then parts[0]
    else parts[0] + [sep] + Join(parts[1..], sep)
  }

  /** Python's `s.split(sep)[-1]`: the text after the last separator,
      found by skipping past one separator at a time. */
  function LastPiece(s: string, sep: char): string
    decreases |s|
  {
    var i := FirstIndex(s, sep);
    if i == |s| then s else LastPiece(s[i + 1..], sep)
  }

  /** Python's `s.endswith(suffix)`. */
  predicate EndsWith(s: string, suffix: string)
  {
    |suffix| <= |s| && s[|s| - |suffix|..] == suffix
  }

  /** Python's `sub in s` on strings. */
  predicate Contains(s: string, sub: string)
  {
    |sub| <= |s| && (s[..|sub|] == sub || Contains(s[1..], sub))
  }

  /** `sub` occurs in `s` starting at index `i`. */
  predicate OccursAt(s: string, sub: string, i: int)
  {
    0 <= i <= |s| - |sub| && s[i..i + |sub|] == sub
  }

  /** `sub in s` holds exactly when `sub` occurs in `s` at some position. */
  lemma {:induction false} ContainsAt(s: string, sub: string)
    ensures Contains(s, sub) <==> exists i :: OccursAt(s, sub, i)
    decreases |s|
  {
    if |sub| <= |s| && s[..|sub|] != sub {
      ContainsAt(s[1..], sub);
      if exists i :: OccursAt(s, sub, i) {
        var i :| OccursAt(s, sub, i);
        assert i != 0 by { assert s[0..|sub|] == s[..|sub|]; }
        assert s[1..][i - 1..i - 1 + |sub|] == s[i..i + |sub|];
        assert OccursAt(s[1..], sub, i - 1);
      }
      if Contains(s[1..], sub) {
        var j :| OccursAt(s[1..], sub, j);
        assert s[j + 1..j + 1 + |sub|] == s[1..][j..j + |sub|];
        assert OccursAt(s, sub, j + 1);
      }
    } else if |sub| <= |s| {
      assert OccursAt(s, sub, 0);
    }
  }


  /** A string without the separator is a single piece. */
  lemma SplitWithoutSeparator(s: string, sep: char)
    requires sep !in s
    ensures Split(s, sep) == [s]
  {
    FirstIndexMissing(s, sep);
  }

  /** The first separator of `x + sep + y` is the one after `x`, when `x`
      holds none; so the split is `x` and then the split of `y`. */
  lemma SplitConcat(x: string, y: string, sep: char)
    requires sep !in x
    ensures Split(x + [sep] + y, sep) == [x] + Split(y, sep)
  {
    var s := x + [sep] + y;
    FirstIndexAfterFree(x, y, sep);
    assert s[..|x|] == x && s[|x| + 1..] == y;
  }

  /** Joining keys with a separator none of them contains is undone by
      splitting: the receiver of `",".join(keys)` recovers `keys` exactly. */
  lemma {:induction false} SplitJoin(parts: seq<string>, sep: char)
    requires |parts| >= 1
    requires forall i | 0 <= i < |parts| :: sep !in parts[i]
    ensures Split(Join(parts, sep), sep) == parts
  {
    if |parts| == 1 {
      SplitWithoutSeparator(parts[0], sep);
    } else {
      SplitJoin(parts[1..], sep);
      SplitConcat(parts[0], Join(parts[1..], sep), sep);
      assert [parts[0]] + parts[1..] == parts;
    }
  }

  /** `LastPiece` is the last element of `Split`. */
  lemma {:induction false} LastPieceIsLastOfSplit(s: string, sep: char)
    ensures var parts := Split(s, sep); LastPiece(s, sep) == parts[|parts| - 1]
    decreases |s|
  {
    var i := FirstIndex(s, sep);
    var parts := Split(s, sep);
    if i == |s| {
      assert parts == [s] && LastPiece(s, sep) == s;
    } else {
      var tail := s[i + 1..];
      LastPieceIsLastOfSplit(tail, sep);
      var rest := Split(tail, sep);
      assert parts == [s[..i]] + rest;
      assert parts[|parts| - 1] == rest[|rest| - 1];
      assert LastPiece(s, sep) == LastPiece(tail, sep);
    }
  }

  /** The last piece holds no separator. */
  lemma {:induction false} LastPieceFree(s: string, sep: char)
    ensures sep !in LastPiece(s, sep)
    decreases |s|
  {
    var i := FirstIndex(s, sep);
    if i == |s| {
      FirstIndexMissing(s, sep);
    } else {
      LastPieceFree(s[i + 1..], sep);
    }
  }

  /** Dropping `k` and then `m` elements drops `k + m`. */
  lemma DropDrop(s: string, k: nat, m: nat)
    requires k + m <= |s|
    ensures s[k..][m..] == s[k + m..]
  {
  }

  /** The last piece of `s.split(sep)` is the longest suffix of `s` free of
      `sep`: it has no separator, it ends `s`, and either it is all of `s`
      or a separator stands right before it. */
  lemma {:induction false} LastPieceIsSuffix(s: string, sep: char)
    ensures var p := LastPiece(s, sep);
      && sep !in p
      && |p| <= |s| && s[|s| - |p|..] == p
      && (|p| == |s| || s[|s| - |p| - 1] == sep)
    decreases |s|
  {
    LastPieceFree(s, sep);
    var i := FirstIndex(s, sep);
    if i < |s| {
      var tail := s[i + 1..];
      LastPieceIsSuffix(tail, sep);
      var p := LastPiece(tail, sep);
      assert LastPiece(s, sep) == p;
      var start := |s| - |p|;
      assert start == i + 1 + (|tail| - |p|);
      DropDrop(s, i + 1, |tail| - |p|);
      if |p| < |tail| {
        assert s[start - 1] == tail[|tail| - |p| - 1];
      } else {
        assert start - 1 == i;
      }
    }
  }

  /** The last piece of `x + sep + y` is the last piece of `y`. */
  lemma {:induction false} LastPieceOfConcat(x: string, y: string, sep: char)
    ensures LastPiece(x + [sep] + y, sep) == LastPiece(y, sep)
    decreases |x|
  {
    var i := FirstIndex(x, sep);
    if i == |x| {
      FirstIndexMissing(x, sep);
      FirstIndexAfterFree(x, y, sep);
      assert (x + [sep] + y)[|x| + 1..] == y;
    } else {
      var s := x + [sep] + y;
      assert s == x + ([sep] + y);
      FirstIndexPrefix(x, [sep] + y, sep);
      assert s[i + 1..] == x[i + 1..] + [sep] + y;
      LastPieceOfConcat(x[i + 1..], y, sep);
      assert LastPiece(s, sep) == LastPiece(s[i + 1..], sep);
    }
  }

  function DigitChar(d: int): char
    requires 0 <= d < 10
  {
    ('0' as int + d) as char
  }

  function DigitValue(c: char): int
  {
    if '0' <= c <= '9' then c as int - '0' as int else 0
  }

  /** `str(n)` of a non-negative Python int: decimal digits, no leading zero. */
  function NatToDecimal(n: nat): (s: string)
    ensures |s| >= 1
    ensures forall i | 0 <= i < |s| :: '0' <= s[i] <= '9'
    ensures |s| > 1 ==> s[0] != '0'
  {
    if n < 10 then [DigitChar(n)]
    else NatToDecimal(n / 10) + [DigitChar(n % 10)]
  }

  /** `f"{n}"` of any Python int: a minus sign in front of negatives. */
  function IntToDecimal(n: int): string
  {
    if n < 0 then "-" + NatToDecimal(-n) else NatToDecimal(n)
  }

  /** The value of a string of decimal digits, read most significant first
      (a non-digit counts as `0`; only digit strings are ever read back). */
  function ParseNat(s: string): nat
  {
    if |s| == 0 then 0
    else ParseNat(s[..|s| - 1]) * 10 + (if '0' <= s[|s| - 1] <= '9' then DigitValue(s[|s| - 1]) else 0)
  }

  /** `int(s)` on a string of decimal digits with an optional leading `-`. */
  function ParseInt(s: string): int
  {
    if |s| > 0 && s[0] == '-' then 0 - ParseNat(s[1..]) else ParseNat(s)
  }

  lemma {:induction false} ParseNatToDecimal(n: nat)
    ensures ParseNat(NatToDecimal(n)) == n
  {
    var s := NatToDecimal(n);
    if n < 10 {
      assert s == [DigitChar(n)];
      assert s[..0] == [];
    } else {
      var prefix := NatToDecimal(n / 10);
      ParseNatToDecimal(n / 10);
      assert s == prefix + [DigitChar(n % 10)];
      assert s[..|s| - 1] == prefix;
      assert DigitValue(s[|s| - 1]) == n % 10;
    }
  }

  /** Every integer's decimal rendering parses back to it. */
  lemma IntToDecimalRoundTrip(n: int)
    ensures ParseInt(IntToDecimal(n)) == n
  {
    if n < 0 {
      var digits := NatToDecimal(-n);
      var s := "-" + digits;
      assert s == IntToDecimal(n);
      assert s[0] == '-' && s[1..] == digits;
      ParseNatToDecimal(-n);
    } else {
      var s := NatToDecimal(n);
      assert s == IntToDecimal(n);
      assert '0' <= s[0] <= '9';
      ParseNatToDecimal(n);
    }
  }
}

=== FILE: values.dfy ===
/** Shared vocabulary of the evaluation client: optional and failing results,
    the values a predictor consumes and produces, dataset examples, and the
    per-repetition outcome recorded for each example. */
module Values {

  datatype Option<+T> = None | Some(value: T)

  datatype Result<+R, +E> = Success(value: R) | Failure(error: E)

  /** The Python exceptions the client raises on its own (as opposed to the
      ones a predictor raises, which become per-repetition outcomes). */
  datatype Error =
    | NotImplemented              // `raise NotImplementedError`
    | ValueError(message: string) // `raise ValueError(message)`
    | UnboundLocal(name: string)  // reading a local that was never assigned

  /** A JSON-like value: an input of an example or an output of a predictor. */
  datatype Value = VInt(i: int) | VStr(s: string) | VList(items: seq<Value>)

  type Inputs = map<string, Value>

  /** An example's identity. Python keeps it as a UUID object; `str(id)` is
      its canonical text, and distinct UUIDs have distinct texts. */
  datatype ExampleId = Uuid(text: string)

  function Str(id: ExampleId): string
  {
    id.text
  }

  /** `str` is injective on example ids, so keying by `str(id)` merges no two
      distinct examples. */
  lemma StrInjective(a: ExampleId, b: ExampleId)
    ensures Str(a) == Str(b) <==> a == b
  {
  }

  datatype Example = Example(id: ExampleId, inputs: Inputs)

  /** What one invocation of a predictor did: returned a value, or raised an
      exception whose `str(e)` is `message`. */
  datatype Attempt = Returned(value: Value) | Raised(message: string)

  /** One slot of an example's output list: the predictor's value, or the
      dictionary `{"Error": message}` the runner appends in its place. */
  datatype Outcome = Output(value: Value) | ErrorEnvelope(message: string)

  /** The `try`/`except Exception` boundary of one repetition. */
  function Catch(a: Attempt): (o: Outcome)
    ensures o.ErrorEnvelope? <==> a.Raised?
    ensures a.Raised? ==> o.message == a.message
    ensures a.Returned? ==> o.value == a.value
  {
    match a
    case Returned(v) => Output(v)
    case Raised(m) => ErrorEnvelope(m)
  }
}

=== FILE: worker.dfy ===
/** `_worker` as a single consumer of the queue: it takes items in order,
    runs every example through the suspending runner, records the outputs
    under `str(example.id)`, counts the example, and stops at the first
    `None` marker. */
module Worker {
  import opened Values
  import opened Predictors
  import opened Runner
  import opened Aggregate

  /** The examples a worker takes before it meets a `None` marker: the
      longest marker-free prefix of the queue. */
  function Work(queue: seq<Option<Example>>): (es: seq<Example>)
    ensures |es| <= |queue|
    ensures forall i | 0 <= i < |es| :: queue[i] == Some(es[i])
    ensures |es| < |queue| ==> queue[|es|] == None
  {
    if |queue| == 0 || queue[0].None? then []
    else [queue[0].value] + Work(queue[1..])
  }

  /** `str(example.id)` of each example, in order. */
  function KeysOf(es: seq<Example>): (keys: seq<string>)
    ensures |keys| == |es|
    ensures forall i | 0 <= i < |es| :: keys[i] == Str(es[i].id)
  {
    seq(|es|, i requires 0 <= i < |es| => Str(es[i].id))
  }

  /** The runner's output list for each example, every run starting from
      the tracer id `saved`. */
  function OutputsOf(mode: Mode, es: seq<Example>, saved: Option<ExampleId>, p: Predictor, n: int): (outs: seq<seq<Outcome>>)
    ensures |outs| == |es|
    ensures forall i | 0 <= i < |es| :: outs[i] == Repetitions(mode, es[i], saved, p, n).outputs
  {
    seq(|es|, i requires 0 <= i < |es| => Repetitions(mode, es[i], saved, p, n).outputs)
  }

  /** What the recorded writes leave in the shared dict: a key for every
      example taken and for nothing else new, each example's key bound to the
      outputs of its last occurrence, each list `Reps(n)` long, and the keys
      the worker never wrote untouched. */
  lemma Recorded(results0: map<string, seq<Outcome>>, es: seq<Example>, tracerId: Option<ExampleId>, p: Predictor, n: int)
    ensures var results := Assign(results0, KeysOf(es), OutputsOf(Suspending, es, tracerId, p, n));
      && (forall key :: key in results <==> key in results0 || exists i | 0 <= i < |es| :: key == Str(es[i].id))
      && (forall i | 0 <= i < |es| && LastWrite(KeysOf(es), i) ::
            results[Str(es[i].id)] == Repetitions(Suspending, es[i], tracerId, p, n).outputs)
      && (forall i | 0 <= i < |es| :: |results[Str(es[i].id)]| == Reps(n))
      && (forall key | key in results0 && key !in KeysOf(es) :: results[key] == results0[key])
  {
    var keys := KeysOf(es);
    var outs := OutputsOf(Suspending, es, tracerId, p, n);
    AssignLastWrite(results0, keys, outs);
    AssignUntouched(results0, keys, outs);
    RecordedKeys(results0, es, tracerId, p, n);
    RecordedLengths(results0, es, tracerId, p, n);
  }

  /** The keys of the worker's dict: the old ones and one per example. */
  lemma RecordedKeys(results0: map<string, seq<Outcome>>, es: seq<Example>, tracerId: Option<ExampleId>, p: Predictor, n: int)
    ensures var results := Assign(results0, KeysOf(es), OutputsOf(Suspending, es, tracerId, p, n));
      forall key :: key in results <==> key in results0 || exists i | 0 <= i < |es| :: key == Str(es[i].id)
  {
    var keys := KeysOf(es);
    var outs := OutputsOf(Suspending, es, tracerId, p, n);
    var results := Assign(results0, keys, outs);
    AssignKeys(results0, keys, outs);
    forall key
      ensures key in results <==> key in results0 || exists i | 0 <= i < |es| :: key == Str(es[i].id)
    {
      if key in keys {
        var i :| 0 <= i < |keys| && keys[i] == key;
        assert key == Str(es[i].id);
      }
      if exists i | 0 <= i < |es| :: key == Str(es[i].id) {
        var i :| 0 <= i < |es| && key == Str(es[i].id);
        assert keys[i] == key;
      }
    }
  }

  /** Every list the worker records has one outcome per repetition. */
  lemma RecordedLengths(results0: map<string, seq<Outcome>>, es: seq<Example>, tracerId: Option<ExampleId>, p: Predictor, n: int)
    ensures var results := Assign(results0, KeysOf(es), OutputsOf(Suspending, es, tracerId, p, n));
      forall i | 0 <= i < |es| :: Str(es[i].id) in results && |results[Str(es[i].id)]| == Reps(n)
  {
    var keys := KeysOf(es);
    var outs := OutputsOf(Suspending, es, tracerId, p, n);
    var results := Assign(results0, keys, outs);
    AssignValues(results0, keys, outs);
    forall i | 0 <= i < |es|
      ensures Str(es[i].id) in results && |results[Str(es[i].id)]| == Reps(n)
    {
      assert keys[i] == Str(es[i].id);
      var v := results[keys[i]];
      assert v in outs;
      var j :| 0 <= j < |outs| && outs[j] == v;
    }
  }

  /** The dict after the worker has recorded `es`, one write at a time, each
      run starting from the tracer id `saved`. */
  function Recording(results0: map<string, seq<Outcome>>, es: seq<Example>, saved: Option<ExampleId>,
                     p: Predictor, n: int): map<string, seq<Outcome>>
    decreases |es|
  {
    if |es| == 0 then results0
    else
      var last := |es| - 1;
      Recording(results0, es[..last], saved, p, n)[Str(es[last].id) := Repetitions(Suspending, es[last], saved, p, n).outputs]
  }

  /** Recording the examples up to `i + 1` is recording those up to `i` and
      then example `i`. */
  lemma RecordingStep(results0: map<string, seq<Outcome>>, es: seq<Example>, saved: Option<ExampleId>,
                      p: Predictor, n: int, i: nat)
    requires i < |es|
    ensures Recording(results0, es[..i + 1], saved, p, n)
         == Recording(results0, es[..i], saved, p, n)[Str(es[i].id) := Repetitions(Suspending, es[i], saved, p, n).outputs]
  {
    assert es[..i + 1][..i] == es[..i];
  }

  /** An item a worker that has taken `i` examples meets next is its next
      example when it is not a marker. */
  lemma WorkTakes(queue: seq<Option<Example>>, i: nat)
    requires i <= |Work(queue)| && i < |queue| && queue[i].Some?
    ensures i < |Work(queue)| && queue[i].value == Work(queue)[i]
  {
  }

  /** A worker that has taken `i` examples and meets a marker or the end of
      the queue has taken all it will. */
  lemma WorkStops(queue: seq<Option<Example>>, i: nat)
    requires i <= |Work(queue)| && (i == |queue| || queue[i].None?)
    ensures i == |Work(queue)|
  {
  }

  /** The recording is the sequence of writes `str(id) -> outputs`. */
  lemma {:induction false} RecordingIsAssign(results0: map<string, seq<Outcome>>, es: seq<Example>,
                                             saved: Option<ExampleId>, p: Predictor, n: int)
    ensures Recording(results0, es, saved, p, n) == Assign(results0, KeysOf(es), OutputsOf(Suspending, es, saved, p, n))
  {
    if |es| > 0 {
      var last := |es| - 1;
      RecordingIsAssign(results0, es[..last], saved, p, n);
      assert KeysOf(es)[..last] == KeysOf(es[..last]);
      assert OutputsOf(Suspending, es, saved, p, n)[..last] == OutputsOf(Suspending, es[..last], saved, p, n);
    }
  }

  /** One item taken from the queue: run the example from tracer id
      `current` and record its outputs under `str(example.id)`. With at least
      one repetition the run starts from, and restores, the saved id; with
      none it records an empty list and leaves the id at the example's. */
  method Take(example: Example, current: Option<ExampleId>, saved: Option<ExampleId>, p: Predictor, n: int,
              results0: map<string, seq<Outcome>>)
    returns (results: map<string, seq<Outcome>>, next: Option<ExampleId>)
    requires n >= 1 ==> current == saved
    ensures results == results0[Str(example.id) := Repetitions(Suspending, example, saved, p, n).outputs]
    ensures next == (if n >= 1 then saved else Some(example.id))
  {
    var outputs;
    outputs, next := RunLlmOrChain(Suspending, example, current, p, n);
    if n < 1 {
      NoRepetitionsNoOutputs(Suspending, example, current, saved, p, n);
    }
    results := results0[Str(example.id) := outputs];
  }

  /** One worker draining `queue` with tracer state `tracerId`, shared result
      dict `results0` and shared counter `processed0`. `stopped` is false
      when the queue ran out without a marker: the real worker would then
      wait in `queue.get()` for ever. Each example's runner starts from the
      tracer id the previous one left; since a run with repetitions restores
      it and a run without produces no outputs, every recorded list equals
      the one a run from the initial id would produce. */
  method Drain(queue: seq<Option<Example>>, tracerId: Option<ExampleId>, p: Predictor, n: int,
               results0: map<string, seq<Outcome>>, processed0: int)
    returns (results: map<string, seq<Outcome>>, numProcessed: int, tasksDone: nat,
             finalTracerId: Option<ExampleId>, stopped: bool)
    ensures var es := Work(queue);
      && stopped == (|es| < |queue|)
      && numProcessed == processed0 + |es|
      && tasksDone == |es|
      && finalTracerId == (if n >= 1 || |es| == 0 then tracerId else Some(es[|es| - 1].id))
      && results == Assign(results0, KeysOf(es), OutputsOf(Suspending, es, tracerId, p, n))
  {
    ghost var es := Work(queue);
    var i := 0;
    var current := tracerId;
    results := results0;
    numProcessed := processed0;
    tasksDone := 0;
    while i < |queue| && queue[i].Some?
      invariant 0 <= i <= |es|
      invariant results == Recording(results0, es[..i], tracerId, p, n)
      invariant numProcessed == processed0 + i && tasksDone == i
      invariant current == (if n >= 1 || i == 0 then tracerId else Some(es[i - 1].id))
      decreases |queue| - i
    {
      WorkTakes(queue, i);
      var example := queue[i].value;
      results, current := Take(example, current, tracerId, p, n, results);
      RecordingStep(results0, es, tracerId, p, n, i);
      tasksDone := tasksDone + 1;
      numProcessed := numProcessed + 1;
      i := i + 1;
    }
    WorkStops(queue, i);
    assert es[..i] == es;
    RecordingIsAssign(results0, es, tracerId, p, n);
    stopped := i < |queue|;
    finalTracerId := current;
  }
}
